=== FILE: README.md ===
# LinkedIn job scraper: the crawl and the match filter

This Dafny project models the decision logic of `Linkedin_Scraper_Tutorial.py`. That script crawls LinkedIn's guest job-search API for one title at a time and keeps the postings that pass a filter. The filter accepts a posting when it is in Spanish and either mentions Python (for the `python` title) or shows a salary (for every other title).

HTML, HTTP and language detection are abstract inputs:

- **Network.** It is an oracle that answers each GET by its place in the crawl. The listing fetch of page `p` on attempt `a` is `listing(p, a)`. The posting fetch for item `n` of page `p` is `posting((p, n), a)`. Any behaviour of the site during one query is one such oracle.
- **Parsed HTML.** A list item is its optional `div.base-card`. A base card is its optional `data-entity-urn` attribute. A posting page is the optional text of the five nodes the filter asks for.
- **Language detection.** It is a function from text to an optional language code. `None` stands for the exception langdetect raises on text without features.
- **Regex classes.** Python's Unicode-aware `\w` and `\d` are parameters (`Patterns.CharClasses`). They are constrained to agree with ASCII on ASCII and not to count KELVIN SIGN as a digit.
- **Exceptions.** An uncaught Python exception ends the whole `scrape_jobs` call. It is modelled as `Err(Crash)` and propagates through the page and the driver.
- **Sleeps.** They are counted, not performed.

Modules:

- `Text`: the string helpers Python provides, namely `str.strip`, `str.split` on one character, and ASCII `lower`.
- `Patterns`: the three regular expressions, written as search functions. Each is proved equal to a declarative predicate saying where a match lies.
- `Fetching`: `handle_request_with_retries`.
- `Matching`: `extract_job_details_and_match`.
- `Runs`: the in-order, exception-propagating loop shared by the item loop and the page loop.
- `Scraper`: `scrape_jobs_from_page`, `scrape_jobs` and the configuration constants.
- `Scenarios`: worked examples.

## Model

| member | source | states |
|---|---|---|
| Fetching.Retry | Linkedin_Scraper_Tutorial.py:61-70 | At most `max_retries` GETs are issued. The first answer whose status is not 429 is returned, whatever its status. The result is None exactly when all `max_retries` answers were 429, including `max_retries <= 0` with no GET. There is one sleep per 429, the last one included. A transport exception after 429s ends the run. The seconds slept are at most `WaitSeconds` times `max_retries`. |
| Fetching.Attempts | Linkedin_Scraper_Tutorial.py:63-68 | The same promises as `Retry`, for the loop entered at attempt `a`. |
| Matching.JobId | Linkedin_Scraper_Tutorial.py:79 | `urn.split(":")[3]` succeeds exactly when the identifier has at least three colons. Otherwise it raises. The result contains no colon. |
| Matching.JobIdOfUrn | Linkedin_Scraper_Tutorial.py:79 | An identifier `a:b:c:id`, optionally followed by more `:`-segments, yields `id`. |
| Matching.Qualifies | Linkedin_Scraper_Tutorial.py:93-116 | The inclusion test holds exactly when the description shows what the title asks for. For the python title that is the keyword; the salary patterns are not consulted. For every other title it is a k-token or euros/brutos on one line. |
| Matching.ExtractAndMatch | Linkedin_Scraper_Tutorial.py:73-126 | The three gates apply in order: card and identifier, then description, then language. A non-Spanish description is rejected whatever it says. Exceptions are raised exactly for a short identifier or an undetectable language. A record is returned exactly when all gates pass and the description shows what the title asks for. The record carries the identifier's fourth segment, and each optional field is present exactly when its node is, stripped. |
| Patterns.ContainsKeyword | Linkedin_Scraper_Tutorial.py:96 | `re.search(r'python', text, re.IGNORECASE)` finds a match exactly when the keyword occurs somewhere in the text, ignoring case. |
| Patterns.FirstFrom | Linkedin_Scraper_Tutorial.py:96 | The search returns the leftmost position at which the pattern matches, or reports that no position in range matches. |
| Patterns.HasKToken | Linkedin_Scraper_Tutorial.py:110 | `\b(?!401k)\d+k\b` finds a match exactly when some span is a whole-word run of digits followed by `k`, not starting with `401k`, ignoring case. |
| Patterns.KTokenAtSpans | Linkedin_Scraper_Tutorial.py:110 | A match starts at `i` exactly when some span from `i` satisfies the token pattern. |
| Patterns.HasEurosBrutos | Linkedin_Scraper_Tutorial.py:113 | The euros/brutos pattern finds a match exactly when the whole words `euros` and `brutos` appear, in either order, with no line break between them. |
| Patterns.EurosBrutosAtSpans | Linkedin_Scraper_Tutorial.py:113 | A match starts at `i` exactly when one of the two word orders matches from `i`. |
| Patterns.WordThenWordOnLineSpans | Linkedin_Scraper_Tutorial.py:113 | `\ba\b.*\bb\b` matches from `i` exactly when a whole-word `b` follows the whole-word `a` on the same line. |
| Text.Strip | Linkedin_Scraper_Tutorial.py:99-102 | `str.strip()` returns a slice of its input, with only whitespace before and after it, that neither begins nor ends with whitespace. |
| Text.StripIdempotent | Linkedin_Scraper_Tutorial.py:99 | Stripping twice is stripping once. |
| Text.Split | Linkedin_Scraper_Tutorial.py:79 | `str.split(sep)` yields one more piece than there are separators. No piece contains the separator, and joining the pieces restores the input. |
| Text.SplitJoin | Linkedin_Scraper_Tutorial.py:79 | Splitting the join of separator-free pieces gives the pieces back. |
| Text.SplitAfterPiece | Linkedin_Scraper_Tutorial.py:79 | Splitting `p:t` yields `p` followed by the split of `t`. |
| Text.SplitWithoutSeparator | Linkedin_Scraper_Tutorial.py:79 | A string without the separator splits into itself alone. |
| Text.Lower | Linkedin_Scraper_Tutorial.py:94 | Lowering keeps the length and lowers each ASCII capital, leaving every other character alone. |
| Runs.SequenceOutcome | Linkedin_Scraper_Tutorial.py:131-138 | The loop over the steps completes exactly when every step does. Otherwise it ends with the exception of the first step that raised. |
| Runs.SequenceSplit | Linkedin_Scraper_Tutorial.py:138 | A range's run is the run of its first part followed by the run of the rest, so results keep step order. |
| Runs.SequenceAt | Linkedin_Scraper_Tutorial.py:131-138 | Whatever step `n` returns, the loop is the steps before `n`, then step `n`, then every later step. |
| Runs.SequenceContents | Linkedin_Scraper_Tutorial.py:179-180 | A completed loop keeps and requests exactly what its steps keep and request. |
| Runs.SequenceJobsBound | Linkedin_Scraper_Tutorial.py:179-180 | Steps that keep at most one record each keep at most one record per step. |
| Runs.SequenceSingletons | Linkedin_Scraper_Tutorial.py:179-180 | When each step keeps at most one record, the loop keeps exactly the records of the steps that kept one, and no more records than steps. |
| Runs.ThenAssociative | Linkedin_Scraper_Tutorial.py:138 | Appending runs is associative, exceptions included. |
| Scraper.FloorDiv | Linkedin_Scraper_Tutorial.py:20 | Python's `//` rounds the quotient toward minus infinity. |
| Scraper.PagesCoverQuota | Linkedin_Scraper_Tutorial.py:18-20 | `max_pages` pages of `jobs_per_page` results make exactly `max_jobs_to_scrap`. Every page starts at an offset whose page fits within that quota. |
| Scraper.ItemRun | Linkedin_Scraper_Tutorial.py:165-180 | A list item without a base card is skipped without a request. A base card without an identifier raises, and so does an identifier with fewer than four colon-separated segments. A usable card that does not raise records exactly one request: the posting page named by the fourth segment, with the GETs and sleeps its fetch spent. The posting fetch's exception ends the item. A failed posting fetch keeps nothing. After a 200 answer, the filter's exception ends the item, and otherwise the item keeps exactly the filter's verdict: its record, or nothing. Each item keeps at most one record. |
| Scraper.ScrapePage | Linkedin_Scraper_Tutorial.py:147-182 | The first request is the results page at offset `page * jobs_per_page`; every later request is a posting. A failed fetch, a non-200 answer or a page without `li` items yields no records. The page raises exactly when the listing fetch raises or one of its items raises, and the exception is the listing fetch's or the first failing item's. A completed page keeps exactly the item loop's records, and its requests after the results page are exactly the item loop's requests. |
| Scraper.ReadPage | Linkedin_Scraper_Tutorial.py:154-182 | After the listing fetch, the page's trace starts with that fetch. A page without a 200 answer or without items makes no further request. The page raises exactly when the answer is a 200 and one of its items raises, and then with the first failing item's exception. A completed 200 page keeps the item loop's records, and the item loop's requests follow the listing fetch. |
| Scraper.ItemLoop | Linkedin_Scraper_Tutorial.py:165-180 | The loop over a page's items completes exactly when no item raises. Otherwise it ends with the exception of the first item that raises, every earlier item having completed. |
| Scraper.ItemRequestsArePostings | Linkedin_Scraper_Tutorial.py:172-173 | Every request made by the item loop is a posting fetch. |
| Scraper.ItemsInOrder | Linkedin_Scraper_Tutorial.py:165-180 | Matches are appended in item order: the page's item loop is the items before `n`, then item `n`, then every later item. |
| Scraper.PageKeepsItemRecords | Linkedin_Scraper_Tutorial.py:165-182 | A page keeps exactly the records its items produce, so no more records than `li` items. |
| Scraper.PageRequestsItemPostings | Linkedin_Scraper_Tutorial.py:165-180 | After the results page, a completed page requests exactly the posting fetches its items made: one per usable card, each with its GETs and sleeps. |
| Scraper.PageIsItemLoop | Linkedin_Scraper_Tutorial.py:165-182 | For a completed page with items, the item loop completes, and the page keeps the loop's records and makes the loop's requests after the results page. |
| Scraper.ScrapeJobs | Linkedin_Scraper_Tutorial.py:128-138 | The query completes exactly when every page below `max_pages` completes. Otherwise it ends with the exception of the first page that raises, every earlier page having completed. |
| Scraper.ScrapeJobsKeepsPageRecords | Linkedin_Scraper_Tutorial.py:138 | `all_jobs` holds exactly the records the pages kept. |
| Scraper.AllPagesRequested | Linkedin_Scraper_Tutorial.py:131-133 | When the query completes, every results page below `max_pages` is requested, and no other results page is. |
| Scraper.NoEarlyStop | Linkedin_Scraper_Tutorial.py:131-138 | Whatever page `p` returns, an empty page included, the run is the pages before `p`, then page `p`, then every later page. |
| Scenarios.JobIdExample | Linkedin_Scraper_Tutorial.py:79 | `urn:li:jobPosting:123` yields `123`. |
| Scenarios.KTokenExamples | Linkedin_Scraper_Tutorial.py:110 | `35k` and `4015K` are salary tokens. |
| Scenarios.KTokenExcludes401k | Linkedin_Scraper_Tutorial.py:110 | `401k` and `401K` are not salary tokens. |
| Scenarios.EurosBrutosEitherOrder | Linkedin_Scraper_Tutorial.py:113 | `brutos, euros` matches: the two words may come in either order. |
| Scenarios.CPythonCounts | Linkedin_Scraper_Tutorial.py:96 | The keyword is a plain substring, so `CPython` mentions Python. |
| Scenarios.TitleExamples | Linkedin_Scraper_Tutorial.py:94 | `python` and `Python` select the keyword policy; `developer` does not. |
| Scenarios.SalaryTextHasKToken | Linkedin_Scraper_Tutorial.py:110 | A Spanish salary line shows the `35k` token. |
| Scenarios.SalaryTextHasEurosBrutos | Linkedin_Scraper_Tutorial.py:113 | The same line shows `euros brutos`. |
| Scenarios.SalaryTextHasPython | Linkedin_Scraper_Tutorial.py:96 | The same line mentions `Python`, capitalised. |
| Scenarios.SalaryTextIsKept | Linkedin_Scraper_Tutorial.py:93-125 | That posting in Spanish is kept for `developer` and for `Python`. |
| Scenarios.PythonTitleIgnoresSalary | Linkedin_Scraper_Tutorial.py:94-107 | A Spanish posting saying only `35k` shows a salary token, yet it is dropped for the python title. |
| Scenarios.RetryReturnsFirstNon429 | Linkedin_Scraper_Tutorial.py:61-70 | Two 429 answers followed by a 500 give three GETs and two sleeps, and the 500 is returned. |

### Where the code and its documentation disagree

The model follows the code in each of these cases:

- **No early stop.** At line 162 the message for a page without items says scraping ends. However, `scrape_jobs` (lines 131-138) goes on to every later page; `Scraper.NoEarlyStop` states this.
- **Malformed identifiers crash.** An identifier with fewer than four segments is not skipped: `split(":")[3]` raises. At line 170, a base card without `data-entity-urn` raises as well, because `None.split` is called before any check. Both end the whole query.
- **Other exceptions crash.** A `requests.get` exception ends the whole query. So does langdetect's exception on a description without features.

## Left out

- Writing to CSV is not modelled: the file deletion at import, the header flag and the `pandas` frame (lines 46-57 and 140-145). It is file I/O.
- The `creation_date` field is not modelled. It is a clock reading (`datetime.now`).
- `main`'s fixed sequence of three titles (lines 22-43) is not modelled. It only calls `scrape_jobs` three times.
- The `print` logging is not modelled. Nor is the exact text of the two URLs or its escaping: a URL is modelled as its endpoint and parameters.
- HTTP, BeautifulSoup parsing and langdetect are inputs: an oracle, parsed node contents, and a detector function.
- The `page > max_pages` guard (lines 136-137) is not reproduced. `page` ranges below `max_pages`, so the guard never fires.
- Python's Unicode `\w` and `\d` are parameters rather than the Unicode tables.
- Patterns.FoldMatch covers part of IGNORECASE matching: ASCII case, plus KELVIN SIGN for `k` and LATIN SMALL LETTER LONG S for `s`. Those are the only non-ASCII characters that Python's case-insensitive matching equates with a letter of the three patterns.
- Text.Lower lowers ASCII capitals only. Python's `str.lower` also lowers other letters, but none of them lowers to a string made of the letters of `python`. So `Matching.IsPythonTitle` decides as the source does.
- Sleeps are counted in `Fetching.Fetched`, not timed. The wait is `WaitSeconds` per counted sleep.

=== FILE: fetching.dfy ===
/** `handle_request_with_retries` (Linkedin_Scraper_Tutorial.py:61-70): up to
    `max_retries` GETs of one URL, sleeping after every 429 answer and
    returning the first answer that is not 429, whatever its status.

    The network is an oracle `(key, attempt) -> Reply`: `key` says which
    request of the run this is and `attempt` which try of the loop. The sleep
    is counted, not performed. */
module Fetching {
  import opened Wrappers
  import opened Failures

  datatype Response<B> = Response(status: int, body: B)

  /** What one `requests.get` call produces: a response, or a raised exception. */
  datatype Reply<B> = Answered(response: Response<B>) | TransportError

  /** The outcome of the loop: the response it returned (None after only 429s),
      the number of GETs issued and the number of sleeps taken. */
  datatype Fetched<B> = Fetched(response: Option<Response<B>>, gets: nat, sleeps: nat)

  const TooManyRequests := 429
  const WaitSeconds := 10

  predicate Throttled<B>(reply: Reply<B>) {
    reply.Answered? && reply.response.status == TooManyRequests
  }

  /** Seconds spent sleeping by a finished loop. */
  function SleptSeconds<B>(f: Fetched<B>): nat {
    f.sleeps * WaitSeconds
  }

  /** The loop from attempt `a` on. */
  function Attempts<K, B>(oracle: (K, nat) -> Reply<B>, key: K, maxRetries: int, a: nat): (r: Result<Fetched<B>, Crash>)
    ensures r.Ok? ==> r.value.gets <= if a < maxRetries then maxRetries - a else 0
    ensures r.Ok? && r.value.response.None? <==> forall n :: a <= n < maxRetries ==> Throttled(oracle(key, n))
    ensures r.Ok? && r.value.response.None? ==> r.value.gets == (if a < maxRetries then maxRetries - a else 0)
    ensures r.Ok? && r.value.response.Some? ==>
              && r.value.gets >= 1
              && oracle(key, a + r.value.gets - 1) == Answered(r.value.response.value)
              && r.value.response.value.status != TooManyRequests
              && forall n :: a <= n < a + r.value.gets - 1 ==> Throttled(oracle(key, n))
    ensures r.Ok? ==> r.value.sleeps == if r.value.response.Some? then r.value.gets - 1 else r.value.gets
    ensures r.Err? <==> exists n :: a <= n < maxRetries && oracle(key, n).TransportError?
                                    && forall m :: a <= m < n ==> Throttled(oracle(key, m))
    ensures r.Err? ==> r.error == ConnectionFailed
    decreases maxRetries - a
  {
    if a >= maxRetries then Ok(Fetched(None, 0, 0))
    else match oracle(key, a)
      case TransportError => Err(ConnectionFailed)
      case Answered(response) =>
        if response.status == TooManyRequests then
          match Attempts(oracle, key, maxRetries, a + 1)
          case Err(e) => Err(e)
          case Ok(f) => Ok(Fetched(f.response, f.gets + 1, f.sleeps + 1))
        else Ok(Fetched(Some(response), 1, 0))
  }

  /** `handle_request_with_retries(url, max_retries)` for the request `key`:
      at most `max_retries` GETs; the first non-429 answer is returned;
      None exactly when every one of the `max_retries` answers was 429 (so
      also for `max_retries <= 0`, with no GET at all); one sleep per 429,
      the last one included. */
  function Retry<K, B>(oracle: (K, nat) -> Reply<B>, key: K, maxRetries: int): (r: Result<Fetched<B>, Crash>)
    ensures r.Ok? ==> r.value.gets <= if maxRetries > 0 then maxRetries else 0
    ensures r.Ok? && r.value.response.None? <==> forall n :: 0 <= n < maxRetries ==> Throttled(oracle(key, n))
    ensures r.Ok? && r.value.response.None? ==> r.value.gets == (if maxRetries > 0 then maxRetries else 0)
    ensures r.Ok? && r.value.response.Some? ==>
              && r.value.gets >= 1
              && oracle(key, r.value.gets - 1) == Answered(r.value.response.value)
              && r.value.response.value.status != TooManyRequests
              && forall n :: 0 <= n < r.value.gets - 1 ==> Throttled(oracle(key, n))
    ensures r.Ok? ==> r.value.sleeps == if r.value.response.Some? then r.value.gets - 1 else r.value.gets
    ensures r.Err? <==> exists n :: 0 <= n < maxRetries && oracle(key, n).TransportError?
                                    && forall m :: 0 <= m < n ==> Throttled(oracle(key, m))
    ensures r.Err? ==> r.error == ConnectionFailed
    // the loop sleeps at most `WaitSeconds` for each permitted attempt
    ensures r.Ok? ==> SleptSeconds(r.value) <= WaitSeconds * (if maxRetries > 0 then maxRetries else 0)
  {
    Attempts(oracle, key, maxRetries, 0)
  }
}

=== FILE: matching.dfy ===
/** `extract_job_details_and_match` (Linkedin_Scraper_Tutorial.py:73-126): three
    ordered reject gates, then one of two inclusion policies chosen by the
    query title, then a record built from best-effort node lookups.

    HTML is abstract: a base card is the attribute lookup it answers, a detail
    page is the text of the nodes it was asked for (None when `find` found no
    node). Language detection is an oracle; None stands for the exception
    langdetect raises on text without features. */
module Matching {
  import opened Wrappers
  import opened Failures
  import opened Text
  import opened Patterns

  /** The `div.base-card` node of a list item, through its `data-entity-urn` attribute. */
  datatype Card = Card(urn: Option<string>)

  /** The nodes of a posting page: `get_text()` of the description div and `.text`
      of the title heading, company link, posted-time span and applicants span. */
  datatype DetailPage = DetailPage(
    description: Option<string>,
    title: Option<string>,
    company: Option<string>,
    posted: Option<string>,
    applicants: Option<string>)

  /** A kept posting. The `creation_date` column is a clock reading and is not modelled. */
  datatype JobRecord = JobRecord(
    jobId: string,
    jobTitle: Option<string>,
    companyName: Option<string>,
    timePosted: Option<string>,
    numApplicants: Option<string>)

  type Detector = string -> Option<string>

  const TargetLanguage := "es"
  const PythonTitle := "python"

  /** `urn.split(":")[3]`: the fourth colon-separated segment, or the IndexError
      Python raises when there are fewer than four. */
  function JobId(urn: string): (r: Result<string, Crash>)
    ensures r.Ok? <==> CountOf(urn, ':') >= 3
    ensures r.Err? ==> r.error == UrnTooShort
    ensures r.Ok? ==> ':' !in r.value
  {
    var segments := Split(urn, ':');
    if |segments| > 3 then Ok(segments[3]) else Err(UrnTooShort)
  }

  /** An identifier of the form `a:b:c:id` (optionally followed by more
      `:`-segments) yields `id`. */
  lemma JobIdOfUrn(a: string, b: string, c: string, id: string, rest: string)
    requires ':' !in a && ':' !in b && ':' !in c && ':' !in id
    requires rest == [] || rest[0] == ':'
    ensures JobId(a + [':'] + b + [':'] + c + [':'] + id + rest) == Ok(id)
  {
    var urn := a + [':'] + b + [':'] + c + [':'] + id + rest;
    var s3 := id + rest;
    SplitThreePieces(a, b, c, s3);
    assert urn == a + [':'] + b + [':'] + c + [':'] + s3;
    FirstPiece(id, rest);
    assert Split(urn, ':')[3] == Split(s3, ':')[0];
  }

  /** Three colon-free pieces before `t` are the first three segments. */
  lemma SplitThreePieces(a: string, b: string, c: string, t: string)
    requires ':' !in a && ':' !in b && ':' !in c
    ensures Split(a + [':'] + b + [':'] + c + [':'] + t, ':') == [a, b, c] + Split(t, ':')
  {
    var s2 := c + [':'] + t;
    var s1 := b + [':'] + s2;
    assert a + [':'] + b + [':'] + c + [':'] + t == a + [':'] + s1;
    SplitAfterPiece(c, ':', t);
    SplitAfterPiece(b, ':', s2);
    SplitAfterPiece(a, ':', s1);
  }

  /** A colon-free piece up to the end or the next colon is the first segment. */
  lemma FirstPiece(id: string, rest: string)
    requires ':' !in id
    requires rest == [] || rest[0] == ':'
    ensures Split(id + rest, ':')[0] == id
  {
    if rest == [] {
      assert id + rest == id;
      SplitWithoutSeparator(id, ':');
    } else {
      assert id + rest == id + [':'] + rest[1..];
      SplitAfterPiece(id, ':', rest[1..]);
    }
  }

  /** `title.lower() == "python"`. */
  predicate IsPythonTitle(title: string) {
    Lower(title) == PythonTitle
  }

  /** What the description must show for the query title, read off the
      patterns: the keyword `python` for the python title, a k-token or
      euros/brutos on one line for every other title. */
  ghost predicate Wanted(cls: CharClasses, title: string, text: string) {
    if IsPythonTitle(title) then exists i: nat :: KeywordAt(text, i, PythonTitle)
    else (exists i: nat, j: nat :: KTokenSpan(cls, text, i, j))
         || (exists i: nat, j: nat :: EurosBrutosSpan(cls, text, i, j))
  }

  /** The inclusion test after the gates: exactly one of the two policies
      applies, chosen by the title alone. */
  function Qualifies(cls: CharClasses, title: string, text: string): (r: bool)
    ensures r <==> Wanted(cls, title, text)
    ensures IsPythonTitle(title) ==> (r <==> ContainsKeyword(text, PythonTitle))
    ensures !IsPythonTitle(title) ==> (r <==> HasKToken(cls, text) || HasEurosBrutos(cls, text))
  {
    if IsPythonTitle(title) then ContainsKeyword(text, PythonTitle)
    else HasKToken(cls, text) || HasEurosBrutos(cls, text)
  }

  /** A best-effort field: the stripped text of the node, None without a node. */
  function Field(node: Option<string>): Option<string> {
    match node
    case None => None
    case Some(text) => Some(Strip(text))
  }

  function BuildRecord(jobId: string, page: DetailPage): JobRecord {
    JobRecord(jobId, Field(page.title), Field(page.company), Field(page.posted), Field(page.applicants))
  }

  /** The record's optional fields are present exactly when their nodes are,
      and then hold the node text without surrounding whitespace. */
  ghost predicate FieldsFrom(rec: JobRecord, page: DetailPage) {
    && (rec.jobTitle.Some? <==> page.title.Some?)
    && (rec.companyName.Some? <==> page.company.Some?)
    && (rec.timePosted.Some? <==> page.posted.Some?)
    && (rec.numApplicants.Some? <==> page.applicants.Some?)
    && (rec.jobTitle.Some? ==> rec.jobTitle.value == Strip(page.title.value))
    && (rec.companyName.Some? ==> rec.companyName.value == Strip(page.company.value))
    && (rec.timePosted.Some? ==> rec.timePosted.value == Strip(page.posted.value))
    && (rec.numApplicants.Some? ==> rec.numApplicants.value == Strip(page.applicants.value))
  }

  /** The card carries an identifier with at least four segments. */
  ghost predicate UsableCard(card: Option<Card>) {
    card.Some? && card.value.urn.Some? && CountOf(card.value.urn.value, ':') >= 3
  }

  /** `extract_job_details_and_match(base_card_div, job_soup, title)`. */
  function ExtractAndMatch(card: Option<Card>, page: DetailPage, title: string, cls: CharClasses, detect: Detector)
    : (r: Result<Option<JobRecord>, Crash>)
    // gate 1: no card or no identifier
    ensures card.None? || card.value.urn.None? ==> r == Ok(None)
    // the identifier is split before any other test
    ensures card.Some? && card.value.urn.Some? && !UsableCard(card) ==> r == Err(UrnTooShort)
    // gate 2: no description
    ensures UsableCard(card) && page.description.None? ==> r == Ok(None)
    // gate 3: language, whatever the description says
    ensures UsableCard(card) && page.description.Some? ==>
              match detect(page.description.value)
              case None => r == Err(LanguageUndetectable)
              case Some(lang) => lang != TargetLanguage ==> r == Ok(None)
    // the exceptions: a short identifier, or a description with no detectable language
    ensures r.Err? <==>
              && card.Some? && card.value.urn.Some?
              && (!UsableCard(card) || (page.description.Some? && detect(page.description.value).None?))
    // inclusion
    ensures r.Ok? && r.value.Some? <==>
              && UsableCard(card)
              && page.description.Some?
              && detect(page.description.value) == Some(TargetLanguage)
              && Wanted(cls, title, page.description.value)
    ensures r.Ok? && r.value.Some? ==>
              && JobId(card.value.urn.value) == Ok(r.value.value.jobId)
              && FieldsFrom(r.value.value, page)
  {
    if card.None? || card.value.urn.None? then Ok(None)
    else match JobId(card.value.urn.value)
      case Err(e) => Err(e)
      case Ok(jobId) =>
        if page.description.None? then Ok(None)
        else
          var text := page.description.value;
          match detect(text)
          case None => Err(LanguageUndetectable)
          case Some(lang) =>
            if lang != TargetLanguage then Ok(None)
            else if Qualifies(cls, title, text) then Ok(Some(BuildRecord(jobId, page)))
            else Ok(None)
  }
}

=== FILE: patterns.dfy ===
/** The three fixed regular expressions of the match filter, written out as
    predicates instead of run through a regex engine:

      `python`                                          (search, IGNORECASE)
      `\b(?!401k)\d+k\b`                                (search, IGNORECASE)
      `\beuros\b.*\bbrutos\b|\bbrutos\b.*\beuros\b`     (search, IGNORECASE)

    Each one has a declarative reading (a `ghost predicate` saying which
    stretch of text the pattern matches) and a scanner that decides it; the
    scanners' contracts tie the two together. */
module Patterns {
  import opened Wrappers

  predicate AsciiWord(c: char) {
    'a' <= c <= 'z' || 'A' <= c <= 'Z' || '0' <= c <= '9' || c == '_'
  }

  predicate AsciiDigit(c: char) {
    '0' <= c <= '9'
  }

  /** Python's Unicode `\w` and `\d` classes, left as parameters. */
  datatype Classes = Classes(isWord: char -> bool, isDigit: char -> bool)

  /** What the model relies on about Python's classes: on ASCII they are
      exactly `[A-Za-z0-9_]` and `[0-9]`, and KELVIN SIGN (which IGNORECASE
      equates with `k`) is not a digit. */
  ghost predicate PythonLike(cls: Classes) {
    && (forall c: char :: c < '\U{80}' ==> (cls.isWord(c) <==> AsciiWord(c)))
    && (forall c: char :: c < '\U{80}' ==> (cls.isDigit(c) <==> AsciiDigit(c)))
    && !cls.isDigit('\U{212A}')
  }

  type CharClasses = cls: Classes | PythonLike(cls) witness Classes(AsciiWord, AsciiDigit)

  /** Upper-case partner of an ASCII lower-case letter. */
  function UpperAscii(c: char): char {
    if 'a' <= c <= 'z' then (c as int - 32) as char else c
  }

  /** Under IGNORECASE a literal lower-case pattern character matches itself,
      its ASCII upper case, and the two further characters Python's `re`
      folds onto letters used here: KELVIN SIGN onto `k`, LONG S onto `s`. */
  predicate FoldMatch(c: char, lit: char) {
    || c == lit
    || c == UpperAscii(lit)
    || (lit == 'k' && c == '\U{212A}')
    || (lit == 's' && c == '\U{17F}')
  }

  /** The literal `kw` matches, ignoring case, at position `i` of `t`. */
  predicate KeywordAt(t: string, i: nat, kw: string) {
    i + |kw| <= |t| && forall m :: 0 <= m < |kw| ==> FoldMatch(t[i + m], kw[m])
  }

  /** `\b` at position `i`: word-ness of the character before and after differ,
      the ends of the text counting as non-word. */
  predicate Boundary(cls: Classes, t: string, i: nat) {
    (0 < i <= |t| && cls.isWord(t[i - 1])) != (i < |t| && cls.isWord(t[i]))
  }

  /** `\bkw\b`: `kw` as a whole word at position `i`. */
  predicate WholeWordAt(cls: Classes, t: string, i: nat, kw: string) {
    Boundary(cls, t, i) && KeywordAt(t, i, kw) && Boundary(cls, t, i + |kw|)
  }

  /** The leftmost position in `[lo, hi)` that satisfies `p`: the scan
      `re.search` performs over candidate starting positions. */
  function FirstFrom(p: nat -> bool, lo: nat, hi: nat): (r: Option<nat>)
    ensures r.Some? ==> lo <= r.value < hi && p(r.value)
    ensures r.Some? ==> forall m :: lo <= m < r.value ==> !p(m)
    ensures r.None? ==> forall m :: lo <= m < hi ==> !p(m)
    decreases hi - lo
  {
    if lo >= hi then None
    else if p(lo) then Some(lo)
    else FirstFrom(p, lo + 1, hi)
  }

  /** Searching every position up to the end of the text finds a match
      exactly when the matches that exist all start at or before the end. */
  lemma {:induction false} SearchText(p: nat -> bool, t: string)
    requires forall i: nat :: p(i) ==> i <= |t|
    ensures FirstFrom(p, 0, |t| + 1).Some? <==> exists i: nat :: p(i)
  {
    if i: nat :| p(i) {
      assert 0 <= i < |t| + 1;
    }
  }

  // ---------------------------------------------------------------------
  // `python`, IGNORECASE

  /** `re.search(kw, t, re.IGNORECASE)` for a literal lower-case `kw`: a
      plain substring test, no word boundaries, so `CPython` contains `python`. */
  function ContainsKeyword(t: string, kw: string): (r: bool)
    ensures r <==> exists i: nat :: KeywordAt(t, i, kw)
  {
    var p := (i: nat) => KeywordAt(t, i, kw);
    SearchText(p, t);
    assert (exists i: nat :: p(i)) <==> exists i: nat :: KeywordAt(t, i, kw) by {
      if i: nat :| KeywordAt(t, i, kw) { assert p(i); }
    }
    FirstFrom(p, 0, |t| + 1).Some?
  }

  // ---------------------------------------------------------------------
  // `\b(?!401k)\d+k\b`, IGNORECASE

  predicate IsK(c: char) {
    FoldMatch(c, 'k')
  }

  /** The negative lookahead `(?!401k)` fails at `i`. */
  predicate Lookahead401k(t: string, i: nat) {
    KeywordAt(t, i, "401k")
  }

  /** The pattern matches `t[i..j + 1]`: a boundary, not `401k` ahead,
      the digits `t[i..j]`, a `k` at `j`, and a boundary after it. */
  ghost predicate KTokenSpan(cls: Classes, t: string, i: nat, j: nat) {
    && i < j < |t|
    && Boundary(cls, t, i)
    && !Lookahead401k(t, i)
    && (forall m :: i <= m < j ==> cls.isDigit(t[m]))
    && IsK(t[j])
    && Boundary(cls, t, j + 1)
  }

  /** End of the run of digits starting at `i`. */
  function DigitRunEnd(cls: Classes, t: string, i: nat): (j: nat)
    requires i <= |t|
    ensures i <= j <= |t|
    ensures forall m :: i <= m < j ==> cls.isDigit(t[m])
    ensures j < |t| ==> !cls.isDigit(t[j])
    decreases |t| - i
  {
    if i == |t| || !cls.isDigit(t[i]) then i else DigitRunEnd(cls, t, i + 1)
  }

  /** The pattern matches starting at `i`. Since a `k` is never a digit, `\d+`
      can only end where the run of digits ends, so one candidate suffices. */
  predicate KTokenAt(cls: Classes, t: string, i: nat) {
    && i < |t|
    && Boundary(cls, t, i)
    && !Lookahead401k(t, i)
    && cls.isDigit(t[i])
    && var j := DigitRunEnd(cls, t, i);
       j < |t| && IsK(t[j]) && Boundary(cls, t, j + 1)
  }

  lemma KTokenAtSpans(cls: CharClasses, t: string)
    ensures forall i: nat :: KTokenAt(cls, t, i) <==> exists j: nat :: KTokenSpan(cls, t, i, j)
  {
    forall i: nat
      ensures KTokenAt(cls, t, i) <==> exists j: nat :: KTokenSpan(cls, t, i, j)
    {
      if KTokenAt(cls, t, i) {
        assert KTokenSpan(cls, t, i, DigitRunEnd(cls, t, i));
      }
      if j: nat :| KTokenSpan(cls, t, i, j) {
        assert cls.isDigit(t[i]);
        var e := DigitRunEnd(cls, t, i);
        assert !cls.isDigit(t[j]) by {
          assert t[j] < '\U{80}' || t[j] == '\U{212A}';
        }
        assert e == j;
      }
    }
  }

  /** `pattern_k.search(t)` is truthy. */
  function HasKToken(cls: CharClasses, t: string): (r: bool)
    ensures r <==> exists i: nat, j: nat :: KTokenSpan(cls, t, i, j)
  {
    var p := (i: nat) => KTokenAt(cls, t, i);
    KTokenAtSpans(cls, t);
    SearchText(p, t);
    assert (exists i: nat :: p(i)) <==> exists i: nat, j: nat :: KTokenSpan(cls, t, i, j) by {
      if i: nat, j: nat :| KTokenSpan(cls, t, i, j) { assert p(i); }
    }
    FirstFrom(p, 0, |t| + 1).Some?
  }

  // ---------------------------------------------------------------------
  // `\beuros\b.*\bbrutos\b|\bbrutos\b.*\beuros\b`, IGNORECASE

  predicate NoNewline(t: string, lo: nat, hi: nat)
    requires hi <= |t|
  {
    forall m :: lo <= m < hi ==> t[m] != '\n'
  }

  /** Whole word `a` at `i`, then whole word `b` at `j`, with only non-newline
      characters between them (what `.*` can cross without DOTALL). */
  ghost predicate WordThenWord(cls: Classes, t: string, i: nat, j: nat, a: string, b: string) {
    && WholeWordAt(cls, t, i, a)
    && i + |a| <= j
    && WholeWordAt(cls, t, j, b)
    && NoNewline(t, i + |a|, j)
  }

  /** One of the two alternatives matches, starting at `i` and with the second word at `j`. */
  ghost predicate EurosBrutosSpan(cls: Classes, t: string, i: nat, j: nat) {
    WordThenWord(cls, t, i, j, "euros", "brutos") || WordThenWord(cls, t, i, j, "brutos", "euros")
  }

  /** Position of the first newline at or after `lo`, or the end of the text. */
  function LineEnd(t: string, lo: nat): (e: nat)
    requires lo <= |t|
    ensures lo <= e <= |t|
    ensures NoNewline(t, lo, e)
    ensures e < |t| ==> t[e] == '\n'
    decreases |t| - lo
  {
    if lo == |t| || t[lo] == '\n' then lo else LineEnd(t, lo + 1)
  }

  function WholeWordsOf(cls: Classes, t: string, kw: string): nat -> bool {
    (j: nat) => WholeWordAt(cls, t, j, kw)
  }

  /** Whole word `a` at `i` and whole word `b` later on the same line. */
  predicate WordThenWordOnLine(cls: Classes, t: string, i: nat, a: string, b: string) {
    && WholeWordAt(cls, t, i, a)
    && FirstFrom(WholeWordsOf(cls, t, b), i + |a|, LineEnd(t, i + |a|)).Some?
  }

  lemma WordThenWordOnLineSpans(cls: Classes, t: string, i: nat, a: string, b: string)
    requires |b| > 0 && b[0] != '\n' && UpperAscii(b[0]) != '\n'
    ensures WordThenWordOnLine(cls, t, i, a, b) <==> exists j: nat :: WordThenWord(cls, t, i, j, a, b)
  {
    if WordThenWordOnLine(cls, t, i, a, b) {
      var j := FirstFrom(WholeWordsOf(cls, t, b), i + |a|, LineEnd(t, i + |a|)).value;
      assert WordThenWord(cls, t, i, j, a, b);
    }
    if j: nat :| WordThenWord(cls, t, i, j, a, b) {
      var e := LineEnd(t, i + |a|);
      assert FoldMatch(t[j + 0], b[0]);
      assert j < e;
      assert WholeWordsOf(cls, t, b)(j);
    }
  }

  lemma EurosBrutosAtSpans(cls: Classes, t: string, i: nat)
    ensures EurosBrutosAt(cls, t, i) <==> exists j: nat :: EurosBrutosSpan(cls, t, i, j)
  {
    WordThenWordOnLineSpans(cls, t, i, "euros", "brutos");
    WordThenWordOnLineSpans(cls, t, i, "brutos", "euros");
    if j: nat :| EurosBrutosSpan(cls, t, i, j) {
      if WordThenWord(cls, t, i, j, "euros", "brutos") {
        assert WordThenWordOnLine(cls, t, i, "euros", "brutos");
      } else {
        assert WordThenWordOnLine(cls, t, i, "brutos", "euros");
      }
    }
    if WordThenWordOnLine(cls, t, i, "euros", "brutos") {
      var j: nat :| WordThenWord(cls, t, i, j, "euros", "brutos");
      assert EurosBrutosSpan(cls, t, i, j);
    } else if WordThenWordOnLine(cls, t, i, "brutos", "euros") {
      var j: nat :| WordThenWord(cls, t, i, j, "brutos", "euros");
      assert EurosBrutosSpan(cls, t, i, j);
    }
  }

  predicate EurosBrutosAt(cls: Classes, t: string, i: nat) {
    WordThenWordOnLine(cls, t, i, "euros", "brutos") || WordThenWordOnLine(cls, t, i, "brutos", "euros")
  }

  /** `pattern_euros_brutos.search(t)` is truthy: `euros` and `brutos`, both as
      whole words, in either order, on one line. */
  function HasEurosBrutos(cls: Classes, t: string): (r: bool)
    ensures r <==> exists i: nat, j: nat :: EurosBrutosSpan(cls, t, i, j)
  {
    var p := (i: nat) => EurosBrutosAt(cls, t, i);
    assert forall i: nat :: p(i) <==> exists j: nat :: EurosBrutosSpan(cls, t, i, j) by {
      forall i: nat
        ensures p(i) <==> exists j: nat :: EurosBrutosSpan(cls, t, i, j)
      {
        EurosBrutosAtSpans(cls, t, i);
      }
    }
    SearchText(p, t);
    assert (exists i: nat :: p(i)) <==> exists i: nat, j: nat :: EurosBrutosSpan(cls, t, i, j) by {
      if i: nat, j: nat :| EurosBrutosSpan(cls, t, i, j) { assert p(i); }
    }
    FirstFrom(p, 0, |t| + 1).Some?
  }
}

=== FILE: runs.dfy ===
/** What a stretch of the crawl produces: the records it kept, in order, and
    the requests it made. Items of a page and pages of a query are both
    processed one after the other, each step either adding to the run or
    raising an exception that ends it; `Sequence` is that loop, once for both. */
module Runs {
  import opened Wrappers
  import opened Failures
  import opened Matching

  /** The two endpoints: a search-results page and a posting page. */
  datatype Url =
    | ListingUrl(keywords: string, location: string, start: int, timeFilter: string)
    | PostingUrl(jobId: string)

  /** One retried fetch: its URL, the GETs it issued and the sleeps it took. */
  datatype Request = Request(url: Url, gets: nat, sleeps: nat)

  datatype Run = Run(jobs: seq<JobRecord>, trace: seq<Request>)

  const Nothing := Run([], [])

  /** First `a`, then `b`; an exception in either ends the run with it. */
  function Then(a: Result<Run, Crash>, b: Result<Run, Crash>): Result<Run, Crash> {
    match a
    case Err(e) => Err(e)
    case Ok(x) =>
      match b
      case Err(e) => Err(e)
      case Ok(y) => Ok(Run(x.jobs + y.jobs, x.trace + y.trace))
  }

  /** Steps `lo`, `lo + 1`, ..., `hi - 1` in order, each run appended to the
      previous ones; an exception ends the loop. */
  function Sequence(step: nat -> Result<Run, Crash>, lo: nat, hi: nat): Result<Run, Crash>
    decreases hi - lo
  {
    if lo >= hi then Ok(Nothing)
    else Then(step(lo), Sequence(step, lo + 1, hi))
  }

  /** The loop completes exactly when every step does; otherwise it stops with
      the exception of the first step that raised one. */
  lemma {:induction false} SequenceOutcome(step: nat -> Result<Run, Crash>, lo: nat, hi: nat)
    ensures Sequence(step, lo, hi).Ok? <==> forall n :: lo <= n < hi ==> step(n).Ok?
    ensures Sequence(step, lo, hi).Err? ==>
              exists n :: lo <= n < hi && step(n) == Err(Sequence(step, lo, hi).error)
                          && forall m :: lo <= m < n ==> step(m).Ok?
    decreases hi - lo
  {
    if lo < hi {
      SequenceOutcome(step, lo + 1, hi);
      if step(lo).Ok? && Sequence(step, lo + 1, hi).Err? {
        var n :| lo + 1 <= n < hi && step(n) == Err(Sequence(step, lo + 1, hi).error)
                 && forall m :: lo + 1 <= m < n ==> step(m).Ok?;
        assert forall m :: lo <= m < n ==> step(m).Ok?;
      }
    }
  }

  lemma ThenAssociative(a: Result<Run, Crash>, b: Result<Run, Crash>, c: Result<Run, Crash>)
    ensures Then(Then(a, b), c) == Then(a, Then(b, c))
  {
    if a.Ok? && b.Ok? && c.Ok? {
      assert a.value.jobs + b.value.jobs + c.value.jobs == a.value.jobs + (b.value.jobs + c.value.jobs);
      assert a.value.trace + b.value.trace + c.value.trace == a.value.trace + (b.value.trace + c.value.trace);
    }
  }

  lemma ThenNothing(a: Result<Run, Crash>)
    ensures Then(a, Ok(Nothing)) == a
  {
    if a.Ok? {
      assert a.value.jobs + [] == a.value.jobs;
      assert a.value.trace + [] == a.value.trace;
    }
  }

  lemma NothingThen(b: Result<Run, Crash>)
    ensures Then(Ok(Nothing), b) == b
  {
    if b.Ok? {
      assert [] + b.value.jobs == b.value.jobs;
      assert [] + b.value.trace == b.value.trace;
    }
  }

  /** Order: the steps before `mid` contribute, in full, before the steps from
      `mid` on; the run of a range is the run of its two halves one after the other. */
  lemma {:induction false} SequenceSplit(step: nat -> Result<Run, Crash>, lo: nat, mid: nat, hi: nat)
    requires lo <= mid <= hi
    ensures Sequence(step, lo, hi) == Then(Sequence(step, lo, mid), Sequence(step, mid, hi))
    decreases mid - lo
  {
    if lo == mid {
      NothingThen(Sequence(step, mid, hi));
    } else {
      var first, left, right := step(lo), Sequence(step, lo + 1, mid), Sequence(step, mid, hi);
      SequenceSplit(step, lo + 1, mid, hi);
      ThenAssociative(first, left, right);
      calc {
        Sequence(step, lo, hi);
        Then(first, Sequence(step, lo + 1, hi));
        Then(first, Then(left, right));
        Then(Then(first, left), right);
        Then(Sequence(step, lo, mid), right);
      }
    }
  }

  /** Whatever step `n` returns, the loop is the steps before it, then step
      `n`, then every step after it. */
  lemma SequenceAt(step: nat -> Result<Run, Crash>, lo: nat, n: nat, hi: nat)
    requires lo <= n < hi
    ensures Sequence(step, lo, hi) == Then(Then(Sequence(step, lo, n), step(n)), Sequence(step, n + 1, hi))
  {
    SequenceSplit(step, lo, n, hi);
    SequenceSplit(step, n, n + 1, hi);
    assert Sequence(step, n, n + 1) == Then(step(n), Ok(Nothing));
    ThenNothing(step(n));
    ThenAssociative(Sequence(step, lo, n), step(n), Sequence(step, n + 1, hi));
  }

  /** A completed run keeps and requests what its steps keep and request,
      nothing else. */
  lemma {:induction false} SequenceContents(step: nat -> Result<Run, Crash>, lo: nat, hi: nat)
    requires Sequence(step, lo, hi).Ok?
    ensures forall rec :: rec in Sequence(step, lo, hi).value.jobs <==>
              exists n :: lo <= n < hi && step(n).Ok? && rec in step(n).value.jobs
    ensures forall req :: req in Sequence(step, lo, hi).value.trace <==>
              exists n :: lo <= n < hi && step(n).Ok? && req in step(n).value.trace
    decreases hi - lo
  {
    if lo < hi {
      SequenceContents(step, lo + 1, hi);
      var r, head, tail := Sequence(step, lo, hi).value, step(lo).value, Sequence(step, lo + 1, hi).value;
      assert r.jobs == head.jobs + tail.jobs;
      assert r.trace == head.trace + tail.trace;
    }
  }

  /** Steps that keep at most one record each keep at most one per step. */
  lemma {:induction false} SequenceJobsBound(step: nat -> Result<Run, Crash>, lo: nat, hi: nat)
    requires lo <= hi
    requires forall n :: lo <= n < hi && step(n).Ok? ==> |step(n).value.jobs| <= 1
    requires Sequence(step, lo, hi).Ok?
    ensures |Sequence(step, lo, hi).value.jobs| <= hi - lo
    decreases hi - lo
  {
    if lo < hi {
      assert step(lo).Ok? && |step(lo).value.jobs| <= 1;
      SequenceJobsBound(step, lo + 1, hi);
      assert Sequence(step, lo, hi).value.jobs == step(lo).value.jobs + Sequence(step, lo + 1, hi).value.jobs;
    }
  }

  /** Steps that keep at most one record each: the loop keeps exactly the
      records of the steps that kept one. */
  lemma SequenceSingletons(step: nat -> Result<Run, Crash>, lo: nat, hi: nat)
    requires lo <= hi
    requires forall n :: lo <= n < hi && step(n).Ok? ==> |step(n).value.jobs| <= 1
    requires Sequence(step, lo, hi).Ok?
    ensures forall rec :: rec in Sequence(step, lo, hi).value.jobs <==>
              exists n :: lo <= n < hi && step(n).Ok? && step(n).value.jobs == [rec]
    ensures |Sequence(step, lo, hi).value.jobs| <= hi - lo
  {
    SequenceContents(step, lo, hi);
    SequenceJobsBound(step, lo, hi);
    forall rec
      ensures rec in Sequence(step, lo, hi).value.jobs <==>
              exists n :: lo <= n < hi && step(n).Ok? && step(n).value.jobs == [rec]
    {
      if rec in Sequence(step, lo, hi).value.jobs {
        var n :| lo <= n < hi && step(n).Ok? && rec in step(n).value.jobs;
        assert step(n).value.jobs == [rec];
      }
    }
  }
}

=== FILE: scenarios.dfy ===
/** Worked cases of the match filter and the retry loop, each stated for every
    choice of Python's Unicode character classes and language detector that
    agrees on the text at hand. */
module Scenarios {
  import opened Wrappers
  import opened Text
  import opened Patterns
  import opened Fetching
  import opened Matching

  const SampleUrn := "urn:li:jobPosting:123"

  /** The identifier format the site uses. */
  lemma JobIdExample()
    ensures JobId(SampleUrn) == Ok("123")
  {
    var u := SampleUrn;
    assert u == "urn" + [':'] + "li" + [':'] + "jobPosting" + [':'] + "123" + [] by {
      assert u[..3] == "urn";
    }
    JobIdOfUrn("urn", "li", "jobPosting", "123", []);
  }

  /** A run of digits followed by `k`, in either case, is a salary token. */
  lemma KTokenExamples(cls: CharClasses)
    ensures HasKToken(cls, "35k")
    ensures HasKToken(cls, "4015K")
  {
    assert KTokenSpan(cls, "35k", 0, 2);
    assert !Lookahead401k("4015K", 0) by {
      assert "401k"[3] == 'k' && "4015K"[0 + 3] == '5';
      assert !FoldMatch("4015K"[0 + 3], "401k"[3]);
    }
    assert KTokenSpan(cls, "4015K", 0, 4);
  }

  /** ... but `401k` is not, in either case: the retirement-plan false
      positive is excluded by the negative lookahead. */
  lemma KTokenExcludes401k(cls: CharClasses)
    ensures !HasKToken(cls, "401k")
    ensures !HasKToken(cls, "401K")
  {
    assert !(exists i: nat, j: nat :: KTokenSpan(cls, "401k", i, j));
  }

  /** The two words match in either order, with anything but a line break
      between them. */
  lemma EurosBrutosEitherOrder(cls: CharClasses)
    ensures HasEurosBrutos(cls, "brutos, euros")
  {
    var u := "brutos, euros";
    assert !cls.isWord(',') && !cls.isWord(' ') && cls.isWord('s') && cls.isWord('b') && cls.isWord('e');
    assert u[6] == ',' && u[7] == ' ';
    assert KeywordAt(u, 0, "brutos") by { assert forall m :: 0 <= m < 6 ==> u[m] == "brutos"[m]; }
    assert KeywordAt(u, 8, "euros") by { assert forall m :: 0 <= m < 5 ==> u[8 + m] == "euros"[m]; }
    assert WordThenWord(cls, u, 0, 8, "brutos", "euros");
    assert EurosBrutosSpan(cls, u, 0, 8);
  }

  const SalaryText := "Salario: " + "35k euros brutos" + " anuales, buscamos" + " desarrollador" + " Python"

  lemma SalaryTextHasKToken(cls: CharClasses)
    ensures HasKToken(cls, SalaryText)
  {
    var t := SalaryText;
    assert t[8] == ' ' && t[9] == '3' && t[10] == '5' && t[11] == 'k' && t[12] == ' ';
    assert !cls.isWord(' ') && cls.isWord('3') && cls.isWord('k') && cls.isDigit('3') && cls.isDigit('5');
    assert !Lookahead401k(t, 9) by { assert !FoldMatch(t[9 + 0], "401k"[0]); }
    assert KTokenSpan(cls, t, 9, 11);
  }

  lemma SalaryTextHasEurosBrutos(cls: CharClasses)
    ensures HasEurosBrutos(cls, SalaryText)
  {
    var t := SalaryText;
    assert t[12] == ' ' && t[18] == ' ' && t[25] == ' ';
    assert !cls.isWord(' ') && cls.isWord('e') && cls.isWord('s') && cls.isWord('b');
    assert KeywordAt(t, 13, "euros") by { assert forall m :: 0 <= m < 5 ==> t[13 + m] == "euros"[m]; }
    assert KeywordAt(t, 19, "brutos") by { assert forall m :: 0 <= m < 6 ==> t[19 + m] == "brutos"[m]; }
    assert WordThenWord(cls, t, 13, 19, "euros", "brutos");
    assert EurosBrutosSpan(cls, t, 13, 19);
  }

  /** The keyword test ignores case: `Python` in the text matches. */
  lemma SalaryTextHasPython()
    ensures ContainsKeyword(SalaryText, PythonTitle)
  {
    var t := SalaryText;
    assert |t| == 64;
    assert KeywordAt(t, 58, PythonTitle) by { assert forall m :: 0 <= m < 6 ==> t[58 + m] == "Python"[m]; }
  }

  /** The keyword is a plain substring, so `CPython` counts. */
  lemma CPythonCounts()
    ensures ContainsKeyword("CPython", PythonTitle)
  {
    assert KeywordAt("CPython", 1, PythonTitle) by {
      assert forall m :: 0 <= m < 6 ==> "CPython"[1 + m] == "Python"[m];
    }
  }

  lemma TitleExamples()
    ensures IsPythonTitle("python") && IsPythonTitle("Python")
    ensures !IsPythonTitle("developer")
  {
    assert Lower("python") == "python";
    assert Lower("Python") == "python";
    assert |Lower("developer")| == 9;
  }

  /** A posting with the sample identifier, detected as Spanish, showing the
      sample salary text, is kept both for a generic title (by the
      compensation signals) and for the python title (by the keyword). */
  lemma SalaryTextIsKept(cls: CharClasses, detect: Detector, page: DetailPage)
    requires page.description == Some(SalaryText)
    requires detect(SalaryText) == Some("es")
    ensures ExtractAndMatch(Some(Card(Some(SampleUrn))), page, "developer", cls, detect).Ok?
    ensures ExtractAndMatch(Some(Card(Some(SampleUrn))), page, "developer", cls, detect).value.Some?
    ensures ExtractAndMatch(Some(Card(Some(SampleUrn))), page, "Python", cls, detect).Ok?
    ensures ExtractAndMatch(Some(Card(Some(SampleUrn))), page, "Python", cls, detect).value.Some?
  {
    JobIdExample();
    TitleExamples();
    SalaryTextHasKToken(cls);
    SalaryTextHasPython();
    assert UsableCard(Some(Card(Some(SampleUrn))));
    assert Wanted(cls, "developer", SalaryText);
    assert Wanted(cls, "Python", SalaryText);
  }

  /** For the python title a salary posting without the keyword is dropped:
      the compensation signals are not consulted. */
  lemma PythonTitleIgnoresSalary(cls: CharClasses, detect: Detector, page: DetailPage)
    requires page.description == Some("35k")
    requires detect("35k") == Some("es")
    ensures HasKToken(cls, "35k")
    ensures ExtractAndMatch(Some(Card(Some(SampleUrn))), page, "python", cls, detect) == Ok(None)
  {
    JobIdExample();
    KTokenExamples(cls);
    TitleExamples();
    assert !(exists i: nat :: KeywordAt("35k", i, PythonTitle));
    assert !Wanted(cls, "python", "35k");
    assert UsableCard(Some(Card(Some(SampleUrn))));
  }

  /** Two 429 answers, then a 500: three GETs, two sleeps, and the 500 is returned. */
  lemma RetryReturnsFirstNon429()
    ensures var oracle := (key: int, a: nat) => Answered(Response(if a < 2 then 429 else 500, ()));
            Retry(oracle, 0, 5) == Ok(Fetched(Some(Response(500, ())), 3, 2))
  {
  }
}

=== FILE: scraper.dfy ===
/** `scrape_jobs_from_page` (Linkedin_Scraper_Tutorial.py:147-182) and
    `scrape_jobs` (Linkedin_Scraper_Tutorial.py:128-138): the crawl of one
    query, page by page and, within a page, list item by list item.

    The network is an oracle answering each GET by its place in the crawl:
    the listing fetch of page `p` on attempt `a` is `listing(p, a)`, the
    posting fetch for item `n` of page `p` on attempt `a` is
    `posting((p, n), a)`. Every GET of one query has its own place, so every
    behaviour of the site during one query is some oracle. */
module Scraper {
  import opened Wrappers
  import opened Failures
  import opened Patterns
  import opened Fetching
  import opened Matching
  import opened Runs

  /** A `li` node of a results page, through its `div.base-card` child. */
  datatype Item = Item(baseCard: Option<Card>)

  /** The arguments of one `scrape_jobs` call that shape the crawl. */
  datatype Query = Query(title: string, location: string, timeFilter: string, jobsPerPage: int, maxPages: int)

  datatype Env = Env(
    listing: (nat, nat) -> Reply<seq<Item>>,
    posting: ((nat, nat), nat) -> Reply<DetailPage>,
    detect: Detector,
    classes: CharClasses)

  // Configuration (Linkedin_Scraper_Tutorial.py:12-20).
  const Location := "Spain"
  const LastDay := "r86400"
  const LastThreeDays := "r259200"
  const LastWeek := "r604800"
  const MaxJobsToScrap := 300
  const JobsPerPage := 10
  const MaxPages := FloorDiv(MaxJobsToScrap, JobsPerPage)

  /** Python's `//`: the quotient rounded toward minus infinity (Dafny's `/`
      rounds so that the remainder is never negative, which differs for a
      negative divisor). */
  function FloorDiv(a: int, b: int): (r: int)
    requires b != 0
    ensures b > 0 ==> r * b <= a < (r + 1) * b
    ensures b < 0 ==> (r + 1) * b < a <= r * b
  {
    if b > 0 then a / b else (-a) / (-b)
  }

  /** `max_pages` pages of `jobs_per_page` results cover the quota exactly:
      the last page starts at offset 290. */
  lemma PagesCoverQuota(title: string, p: nat)
    requires p < MaxPages
    ensures MaxPages * JobsPerPage == MaxJobsToScrap
    ensures ListingUrlOf(DefaultQuery(title), p).start + JobsPerPage <= MaxJobsToScrap
  {
    assert MaxPages == 30;
  }

  const ListingRetries := 5
  const PostingRetries := 3
  const OkStatus := 200

  function DefaultQuery(title: string): Query {
    Query(title, Location, LastDay, JobsPerPage, MaxPages)
  }

  /** The results page `page` is asked for from offset `page * jobs_per_page`. */
  function ListingUrlOf(q: Query, page: nat): Url {
    ListingUrl(q.title, q.location, page * q.jobsPerPage, q.timeFilter)
  }

  /** The fetch answered 200 (a None from the retry loop is not a response). */
  predicate Succeeded<B>(f: Fetched<B>) {
    f.response.Some? && f.response.value.status == OkStatus
  }

  /** One pass of the item loop (Linkedin_Scraper_Tutorial.py:165-180). */
  function ItemRun(q: Query, env: Env, page: nat, items: seq<Item>, n: nat): (r: Result<Run, Crash>)
    // no base card: skipped without a request
    ensures n < |items| && items[n].baseCard.None? ==> r == Ok(Nothing)
    // a base card without an identifier is split anyway
    ensures n < |items| && items[n].baseCard.Some? && items[n].baseCard.value.urn.None? ==> r == Err(UrnMissing)
    ensures r.Ok? ==> |r.value.jobs| <= 1 && |r.value.trace| <= 1
    ensures r.Ok? ==> forall req :: req in r.value.trace ==> req.url.PostingUrl?
    // an identifier with fewer than four segments raises
    ensures (n < |items| && items[n].baseCard.Some? && items[n].baseCard.value.urn.Some?
             && !UsableCard(items[n].baseCard)) ==> r == Err(UrnTooShort)
    // a usable card: one posting fetch, whose exception ends the item; a failed
    // fetch keeps nothing; otherwise the filter's verdict is kept or raised
    ensures n < |items| && UsableCard(items[n].baseCard) ==>
              var f := Retry(env.posting, (page, n), PostingRetries);
              && (f.Err? ==> r == Err(f.error))
              && (r.Ok? ==> r.value.trace == [Request(PostingUrl(JobId(items[n].baseCard.value.urn.value).value),
                                                      f.value.gets, f.value.sleeps)])
              && (f.Ok? && !Succeeded(f.value) ==> r.Ok? && r.value.jobs == [])
              && (f.Ok? && Succeeded(f.value) ==>
                    match ExtractAndMatch(items[n].baseCard, f.value.response.value.body, q.title, env.classes, env.detect)
                    case Err(e) => r == Err(e)
                    case Ok(m) => r.Ok? && r.value.jobs == (if m.Some? then [m.value] else []))
    // a kept record is the filter's verdict on the posting page
    ensures r.Ok? && r.value.jobs != [] ==>
              && n < |items| && UsableCard(items[n].baseCard)
              && var f := Retry(env.posting, (page, n), PostingRetries);
                 && f.Ok? && Succeeded(f.value)
                 && ExtractAndMatch(items[n].baseCard, f.value.response.value.body, q.title, env.classes, env.detect)
                    == Ok(Some(r.value.jobs[0]))
  {
    if n >= |items| then Ok(Nothing)
    else match items[n].baseCard
      case None => Ok(Nothing)
      case Some(card) =>
        match card.urn
        case None => Err(UrnMissing)
        case Some(urn) =>
          match JobId(urn)
          case Err(e) => Err(e)
          case Ok(jobId) =>
            match Retry(env.posting, (page, n), PostingRetries)
            case Err(e) => Err(e)
            case Ok(f) =>
              var request := Request(PostingUrl(jobId), f.gets, f.sleeps);
              if !Succeeded(f) then Ok(Run([], [request]))
              else
                match ExtractAndMatch(Some(card), f.response.value.body, q.title, env.classes, env.detect)
                case Err(e) => Err(e)
                case Ok(None) => Ok(Run([], [request]))
                case Ok(Some(job)) => Ok(Run([job], [request]))
  }

  function ItemSteps(q: Query, env: Env, page: nat, items: seq<Item>): nat -> Result<Run, Crash> {
    (n: nat) => ItemRun(q, env, page, items, n)
  }

  /** The listing fetch gave nothing to read: no 200 answer, or no `li` in it. */
  ghost predicate BlankListing(env: Env, page: nat) {
    var f := Retry(env.listing, page, ListingRetries);
    f.Ok? && (!Succeeded(f.value) || f.value.response.value.body == [])
  }

  /** `scrape_jobs_from_page(page, ...)`. */
  function ScrapePage(q: Query, env: Env, page: nat): (r: Result<Run, Crash>)
    // the first request is the results page at offset page * jobs_per_page
    ensures r.Ok? ==> |r.value.trace| >= 1 && r.value.trace[0].url == ListingUrlOf(q, page)
    ensures r.Ok? ==> forall m :: 1 <= m < |r.value.trace| ==> r.value.trace[m].url.PostingUrl?
    // a failed fetch or an empty page is an empty result, not an error
    ensures BlankListing(env, page) ==> r.Ok? && r.value.jobs == [] && |r.value.trace| == 1
    // exceptions: the listing fetch's, or the first raised by an item
    ensures r.Err? <==> Retry(env.listing, page, ListingRetries).Err? || ItemFails(q, env, page, PageItems(env, page))
    ensures r.Err? ==> Retry(env.listing, page, ListingRetries) == Err(r.error)
                       || FirstItemFailure(q, env, page, PageItems(env, page), r.error)
    // after the results page come exactly the item loop's records and requests
    ensures r.Ok? ==> var rest := ItemLoop(q, env, page, PageItems(env, page));
                      rest.Ok? && r.value.jobs == rest.value.jobs && r.value.trace[1..] == rest.value.trace
  {
    match Retry(env.listing, page, ListingRetries)
    case Err(e) => Err(e)
    case Ok(f) => ReadPage(q, env, page, f)
  }

  /** The part of `scrape_jobs_from_page` after the results page was fetched. */
  function ReadPage(q: Query, env: Env, page: nat, f: Fetched<seq<Item>>): (r: Result<Run, Crash>)
    ensures r.Ok? ==> |r.value.trace| >= 1 && r.value.trace[0] == Request(ListingUrlOf(q, page), f.gets, f.sleeps)
    ensures r.Ok? ==> forall m :: 1 <= m < |r.value.trace| ==> r.value.trace[m].url.PostingUrl?
    ensures !Succeeded(f) || f.response.value.body == [] ==> r == Ok(Run([], [Request(ListingUrlOf(q, page), f.gets, f.sleeps)]))
    // a 200 page with items: the item loop's records, and its requests after the listing's
    ensures Succeeded(f) && r.Ok? ==> var rest := ItemLoop(q, env, page, f.response.value.body);
              rest.Ok? && r.value.jobs == rest.value.jobs && r.value.trace[1..] == rest.value.trace
    // an item's exception ends the page
    ensures r.Err? <==> Succeeded(f) && ItemFails(q, env, page, f.response.value.body)
    ensures r.Err? ==> Succeeded(f) && FirstItemFailure(q, env, page, f.response.value.body, r.error)
  {
    var request := Ok(Run([], [Request(ListingUrlOf(q, page), f.gets, f.sleeps)]));
    if !Succeeded(f) then request
    else
      var items := f.response.value.body;
      if items == [] then request
      else
        var rest := ItemLoop(q, env, page, items);
        ListingThenPostings(Request(ListingUrlOf(q, page), f.gets, f.sleeps), rest);
        Then(request, rest)
  }

  /** A listing request followed by posting requests starts with the former
      and continues with the latter. */
  lemma ListingThenPostings(listing: Request, rest: Result<Run, Crash>)
    requires rest.Ok? ==> forall m :: 0 <= m < |rest.value.trace| ==> rest.value.trace[m].url.PostingUrl?
    ensures var r := Then(Ok(Run([], [listing])), rest);
            r.Ok? ==> && |r.value.trace| >= 1 && r.value.trace[0] == listing
                      && forall m :: 1 <= m < |r.value.trace| ==> r.value.trace[m].url.PostingUrl?
  {
    var r := Then(Ok(Run([], [listing])), rest);
    if r.Ok? {
      assert r.value.trace == [listing] + rest.value.trace;
      assert forall m :: 1 <= m < |r.value.trace| ==> r.value.trace[m] == rest.value.trace[m - 1];
    }
  }

  /** Some item of `items` raises. */
  ghost predicate ItemFails(q: Query, env: Env, page: nat, items: seq<Item>) {
    exists n :: 0 <= n < |items| && ItemRun(q, env, page, items, n).Err?
  }

  /** Item `n` is the first of `items` to raise, and it raises `e`. */
  ghost predicate FirstItemFailure(q: Query, env: Env, page: nat, items: seq<Item>, e: Crash) {
    exists n :: 0 <= n < |items| && ItemRun(q, env, page, items, n) == Err(e)
                && forall m :: 0 <= m < n ==> ItemRun(q, env, page, items, m).Ok?
  }

  /** `for job in page_jobs`: the items in order. The loop completes unless
      an item raises, and then ends with the first such exception; every
      request it makes is a posting fetch. */
  function ItemLoop(q: Query, env: Env, page: nat, items: seq<Item>): (r: Result<Run, Crash>)
    ensures r.Err? <==> ItemFails(q, env, page, items)
    ensures r.Err? ==> FirstItemFailure(q, env, page, items, r.error)
    ensures r.Ok? ==> forall m :: 0 <= m < |r.value.trace| ==> r.value.trace[m].url.PostingUrl?
  {
    var steps := ItemSteps(q, env, page, items);
    ItemRequestsArePostings(q, env, page, items);
    SequenceOutcome(steps, 0, |items|);
    assert forall n :: steps(n) == ItemRun(q, env, page, items, n);
    Sequence(steps, 0, |items|)
  }

  lemma ItemRequestsArePostings(q: Query, env: Env, page: nat, items: seq<Item>)
    ensures var rest := Sequence(ItemSteps(q, env, page, items), 0, |items|);
            rest.Ok? ==> forall m :: 0 <= m < |rest.value.trace| ==> rest.value.trace[m].url.PostingUrl?
  {
    var rest := Sequence(ItemSteps(q, env, page, items), 0, |items|);
    if rest.Ok? {
      SequenceContents(ItemSteps(q, env, page, items), 0, |items|);
      forall m | 0 <= m < |rest.value.trace|
        ensures rest.value.trace[m].url.PostingUrl?
      {
        assert rest.value.trace[m] in rest.value.trace;
      }
    }
  }

  /** The items of the page that a completed page run read: those of a 200
      listing answer with at least one `li`. */
  function PageItems(env: Env, page: nat): seq<Item> {
    var f := Retry(env.listing, page, ListingRetries);
    if f.Ok? && Succeeded(f.value) then f.value.response.value.body else []
  }

  /** The page keeps exactly the records its items produce, so at most one per
      `li` item, and only from items whose base card and posting fetch were usable. */
  lemma PageKeepsItemRecords(q: Query, env: Env, page: nat)
    requires ScrapePage(q, env, page).Ok?
    ensures forall rec :: rec in ScrapePage(q, env, page).value.jobs <==>
              exists n :: 0 <= n < |PageItems(env, page)| && ItemRun(q, env, page, PageItems(env, page), n).Ok?
                          && ItemRun(q, env, page, PageItems(env, page), n).value.jobs == [rec]
    ensures |ScrapePage(q, env, page).value.jobs| <= |PageItems(env, page)|
  {
    var items := PageItems(env, page);
    var steps := ItemSteps(q, env, page, items);
    if items != [] {
      PageIsItemLoop(q, env, page);
      SequenceSingletons(steps, 0, |items|);
      assert forall n :: steps(n) == ItemRun(q, env, page, items, n);
    }
  }

  /** After the results page, the page requests exactly the postings its
      items fetched: one per usable card, with that fetch's GETs and sleeps. */
  lemma PageRequestsItemPostings(q: Query, env: Env, page: nat)
    requires ScrapePage(q, env, page).Ok?
    ensures forall req :: req in ScrapePage(q, env, page).value.trace[1..] <==>
              exists n :: 0 <= n < |PageItems(env, page)| && ItemRun(q, env, page, PageItems(env, page), n).Ok?
                          && req in ItemRun(q, env, page, PageItems(env, page), n).value.trace
  {
    var items := PageItems(env, page);
    var steps := ItemSteps(q, env, page, items);
    assert ItemLoop(q, env, page, items) == Sequence(steps, 0, |items|);
    SequenceContents(steps, 0, |items|);
    assert forall n :: steps(n) == ItemRun(q, env, page, items, n);
  }

  /** Matches are appended in item order: the page's loop is the items
      before `n`, then item `n`, then every item after it. */
  lemma ItemsInOrder(q: Query, env: Env, page: nat, items: seq<Item>, n: nat)
    requires n < |items|
    ensures ItemLoop(q, env, page, items) ==
              Then(Then(Sequence(ItemSteps(q, env, page, items), 0, n), ItemRun(q, env, page, items, n)),
                   Sequence(ItemSteps(q, env, page, items), n + 1, |items|))
  {
    SequenceAt(ItemSteps(q, env, page, items), 0, n, |items|);
  }

  /** A page with items keeps what the item loop over them keeps. */
  lemma PageIsItemLoop(q: Query, env: Env, page: nat)
    requires ScrapePage(q, env, page).Ok?
    requires PageItems(env, page) != []
    ensures var rest := Sequence(ItemSteps(q, env, page, PageItems(env, page)), 0, |PageItems(env, page)|);
            && rest.Ok? && ScrapePage(q, env, page).value.jobs == rest.value.jobs
            && ScrapePage(q, env, page).value.trace[1..] == rest.value.trace
  {
    var f := Retry(env.listing, page, ListingRetries).value;
    var items := PageItems(env, page);
    assert ScrapePage(q, env, page) == ReadPage(q, env, page, f);
    var loop := ItemLoop(q, env, page, items);
    assert loop == Sequence(ItemSteps(q, env, page, items), 0, |items|);
    assert ReadPage(q, env, page, f) == Then(Ok(Run([], [Request(ListingUrlOf(q, page), f.gets, f.sleeps)])), loop);
  }

  function PageSteps(q: Query, env: Env): nat -> Result<Run, Crash> {
    (p: nat) => ScrapePage(q, env, p)
  }

  /** `range(max_pages)`: no page for a non-positive count. */
  function PageCount(q: Query): nat {
    if q.maxPages > 0 then q.maxPages else 0
  }

  /** Page `p` is the first page to raise, and it raises `e`. */
  ghost predicate FirstPageFailure(q: Query, env: Env, e: Crash) {
    exists p: nat :: p < q.maxPages && ScrapePage(q, env, p) == Err(e)
                     && forall p': nat :: p' < p ==> ScrapePage(q, env, p').Ok?
  }

  /** `scrape_jobs(title, ...)`, up to the CSV write: every page index is
      scraped in turn and the pages' records are concatenated in page order. */
  function ScrapeJobs(q: Query, env: Env): (r: Result<Run, Crash>)
    ensures r.Ok? <==> forall p: nat :: p < q.maxPages ==> ScrapePage(q, env, p).Ok?
    ensures r.Err? ==> FirstPageFailure(q, env, r.error)
  {
    var steps := PageSteps(q, env);
    assert forall p: nat :: steps(p) == ScrapePage(q, env, p);
    SequenceOutcome(steps, 0, PageCount(q));
    Sequence(steps, 0, PageCount(q))
  }

  /** `all_jobs` holds exactly the records the pages kept. */
  lemma ScrapeJobsKeepsPageRecords(q: Query, env: Env)
    requires ScrapeJobs(q, env).Ok?
    ensures forall rec :: rec in ScrapeJobs(q, env).value.jobs <==>
              exists p: nat :: p < q.maxPages && ScrapePage(q, env, p).Ok? && rec in ScrapePage(q, env, p).value.jobs
  {
    var steps := PageSteps(q, env);
    var jobs := ScrapeJobs(q, env).value.jobs;
    SequenceContents(steps, 0, PageCount(q));
    forall rec
      ensures rec in jobs <==> exists p: nat :: p < q.maxPages && ScrapePage(q, env, p).Ok? && rec in ScrapePage(q, env, p).value.jobs
    {
      if rec in jobs {
        var p :| 0 <= p < PageCount(q) && steps(p).Ok? && rec in steps(p).value.jobs;
        assert p < q.maxPages && ScrapePage(q, env, p).Ok? && rec in ScrapePage(q, env, p).value.jobs;
      }
      if p: nat :| p < q.maxPages && ScrapePage(q, env, p).Ok? && rec in ScrapePage(q, env, p).value.jobs {
        assert 0 <= p < PageCount(q) && steps(p).Ok? && rec in steps(p).value.jobs;
      }
    }
  }

  /** Every page index below `max_pages` is requested, whatever the pages
      before it returned, and no other results page is. */
  lemma AllPagesRequested(q: Query, env: Env)
    requires ScrapeJobs(q, env).Ok?
    ensures EveryPageIn(q, ScrapeJobs(q, env).value.trace)
    ensures OnlyPagesIn(q, ScrapeJobs(q, env).value.trace)
  {
    EveryPageRequested(q, env);
    OnlyPagesRequested(q, env);
  }

  /** Every results page below `max_pages` appears in `trace`. */
  ghost predicate EveryPageIn(q: Query, trace: seq<Request>) {
    forall p: nat :: p < q.maxPages ==> exists m :: 0 <= m < |trace| && trace[m].url == ListingUrlOf(q, p)
  }

  /** Every results page in `trace` is one below `max_pages`. */
  ghost predicate OnlyPagesIn(q: Query, trace: seq<Request>) {
    forall m :: 0 <= m < |trace| && trace[m].url.ListingUrl? ==>
      exists p: nat :: p < q.maxPages && trace[m].url == ListingUrlOf(q, p)
  }

  lemma EveryPageRequested(q: Query, env: Env)
    requires ScrapeJobs(q, env).Ok?
    ensures EveryPageIn(q, ScrapeJobs(q, env).value.trace)
  {
    var steps := PageSteps(q, env);
    var trace := ScrapeJobs(q, env).value.trace;
    SequenceContents(steps, 0, PageCount(q));
    forall p: nat | p < q.maxPages
      ensures exists m :: 0 <= m < |trace| && trace[m].url == ListingUrlOf(q, p)
    {
      var first := ScrapePage(q, env, p).value.trace[0];
      assert first in steps(p).value.trace;
      assert first in trace;
    }
  }

  lemma OnlyPagesRequested(q: Query, env: Env)
    requires ScrapeJobs(q, env).Ok?
    ensures OnlyPagesIn(q, ScrapeJobs(q, env).value.trace)
  {
    var steps := PageSteps(q, env);
    var trace := ScrapeJobs(q, env).value.trace;
    SequenceContents(steps, 0, PageCount(q));
    forall m | 0 <= m < |trace| && trace[m].url.ListingUrl?
      ensures exists p: nat :: p < q.maxPages && trace[m].url == ListingUrlOf(q, p)
    {
      assert trace[m] in trace;
      var p :| 0 <= p < PageCount(q) && steps(p).Ok? && trace[m] in steps(p).value.trace;
      ListingOnlyFirst(q, env, p, trace[m]);
    }
  }

  /** The only results-page request of a page is its own. */
  lemma ListingOnlyFirst(q: Query, env: Env, p: nat, req: Request)
    requires ScrapePage(q, env, p).Ok?
    requires req in ScrapePage(q, env, p).value.trace && req.url.ListingUrl?
    ensures req.url == ListingUrlOf(q, p)
  {
    var pageTrace := ScrapePage(q, env, p).value.trace;
    var k :| 0 <= k < |pageTrace| && pageTrace[k] == req;
    assert k == 0;
  }

  /** Nothing a page returns ends the query early, an empty page included:
      the run is the pages before `p`, then page `p`, then every page after it. */
  lemma NoEarlyStop(q: Query, env: Env, p: nat)
    requires p < q.maxPages
    ensures ScrapeJobs(q, env) ==
              Then(Then(Sequence(PageSteps(q, env), 0, p), ScrapePage(q, env, p)),
                   Sequence(PageSteps(q, env), p + 1, q.maxPages))
  {
    SequenceAt(PageSteps(q, env), 0, p, q.maxPages);
  }
}

=== FILE: text.dfy ===
/** The Python string operations the scraper applies to page text:
    `str.strip()`, `str.split(sep)` and `str.lower()` (the last one only as far
    as it can make a title equal to an all-ASCII word). */
module Text {

  /** Python's `str.isspace`: the characters `str.strip()` removes. */
  predicate IsSpace(c: char) {
    || ('\t' <= c <= '\r')
    || ('\U{1C}' <= c <= '\U{1F}')
    || c == ' ' || c == '\U{85}' || c == '\U{A0}' || c == '\U{1680}'
    || ('\U{2000}' <= c <= '\U{200A}')
    || c == '\U{2028}' || c == '\U{2029}' || c == '\U{202F}' || c == '\U{205F}' || c == '\U{3000}'
  }

  predicate AllSpace(s: string) {
    forall i :: 0 <= i < |s| ==> IsSpace(s[i])
  }

  /** Number of whitespace characters at the front of `s`. */
  function LeadingSpaces(s: string): (n: nat)
    ensures n <= |s|
    ensures AllSpace(s[..n])
    ensures n < |s| ==> !IsSpace(s[n])
  {
    if s == [] || !IsSpace(s[0]) then 0 else 1 + LeadingSpaces(s[1..])
  }

  /** Number of whitespace characters at the back of `s`. */
  function TrailingSpaces(s: string): (n: nat)
    ensures n <= |s|
    ensures AllSpace(s[|s| - n..])
    ensures n < |s| ==> !IsSpace(s[|s| - n - 1])
  {
    if s == [] || !IsSpace(s[|s| - 1]) then 0 else 1 + TrailingSpaces(s[..|s| - 1])
  }

  /** `s.strip()`: `s` without its leading and trailing whitespace. */
  function Strip(s: string): (r: string)
    ensures exists lo: nat :: lo + |r| <= |s| && s[lo..lo + |r|] == r
                              && AllSpace(s[..lo]) && AllSpace(s[lo + |r|..])
    ensures r != [] ==> !IsSpace(r[0]) && !IsSpace(r[|r| - 1])
  {
    var lo := LeadingSpaces(s);
    if lo == |s| then
      assert s[..lo] == s;
      assert s[lo..lo] == [];
      []
    else
      var hi := |s| - TrailingSpaces(s);
      SuffixSpace(s, TrailingSpaces(s), lo);
      var r := s[lo..hi];
      assert r[0] == s[lo] && r[|r| - 1] == s[|s| - TrailingSpaces(s) - 1];
      assert s[lo + |r|..] == s[|s| - TrailingSpaces(s)..];
      assert lo + |r| <= |s| && s[lo..lo + |r|] == r && AllSpace(s[..lo]) && AllSpace(s[lo + |r|..]);
      r
  }

  /** A position inside an all-whitespace suffix holds whitespace. */
  lemma SuffixSpace(s: string, n: nat, m: nat)
    requires n <= |s| && AllSpace(s[|s| - n..]) && m < |s|
    ensures m >= |s| - n ==> IsSpace(s[m])
  {
    if m >= |s| - n {
      assert s[m] == s[|s| - n..][m - (|s| - n)];
    }
  }

  /** Stripping twice is stripping once: a stripped string has nothing left to remove. */
  lemma StripIdempotent(s: string)
    ensures Strip(Strip(s)) == Strip(s)
  {
    var r := Strip(s);
    if r != [] {
      assert LeadingSpaces(r) == 0;
      assert TrailingSpaces(r) == 0;
      assert r[0..|r|] == r;
    }
  }

  /** Number of occurrences of `c` in `s`. */
  function CountOf(s: string, c: char): nat {
    if s == [] then 0 else (if s[0] == c then 1 else 0) + CountOf(s[1..], c)
  }

  /** `sep.join(parts)`. */
  function Join(parts: seq<string>, sep: char): string {
    if parts == [] then []
    else if |parts| == 1 then parts[0]
    else parts[0] + [sep] + Join(parts[1..], sep)
  }

  /** `s.split(sep)` for a one-character separator: every piece between two
      separators, empty pieces included, so there is always one piece more
      than there are separators. */
  function Split(s: string, sep: char): (parts: seq<string>)
    ensures |parts| == CountOf(s, sep) + 1
    ensures forall k :: 0 <= k < |parts| ==> sep !in parts[k]
    ensures Join(parts, sep) == s
  {
    if s == [] then [[]]
    else
      var rest := Split(s[1..], sep);
      if s[0] == sep then
        assert s == [] + [sep] + s[1..];
        [[]] + rest
      else
        var parts := [[s[0]] + rest[0]] + rest[1..];
        assert parts[1..] == rest[1..];
        assert s == [s[0]] + s[1..];
        parts
  }

  lemma {:induction false} SplitWithoutSeparator(s: string, sep: char)
    requires sep !in s
    ensures Split(s, sep) == [s]
    decreases |s|
  {
    if s != [] {
      SplitWithoutSeparator(s[1..], sep);
      assert [s[0]] + s[1..] == s;
    }
  }

  /** A separator splits its two sides apart: what precedes a separator-free
      piece's closing separator is exactly that piece. */
  lemma {:induction false} SplitAfterPiece(p: string, sep: char, t: string)
    requires sep !in p
    ensures Split(p + [sep] + t, sep) == [p] + Split(t, sep)
    decreases |p|
  {
    if p == [] {
      assert p + [sep] + t == [sep] + t;
      assert ([sep] + t)[1..] == t;
    } else {
      var s := p + [sep] + t;
      assert s[1..] == p[1..] + [sep] + t;
      SplitAfterPiece(p[1..], sep, t);
      assert [p[0]] + p[1..] == p;
    }
  }

  /** Round trip: joining separator-free pieces and splitting again gives the pieces back. */
  lemma {:induction false} SplitJoin(parts: seq<string>, sep: char)
    requires parts != []
    requires forall k :: 0 <= k < |parts| ==> sep !in parts[k]
    ensures Split(Join(parts, sep), sep) == parts
    decreases |parts|
  {
    if |parts| == 1 {
      SplitWithoutSeparator(parts[0], sep);
    } else {
      SplitJoin(parts[1..], sep);
      SplitAfterPiece(parts[0], sep, Join(parts[1..], sep));
      assert [parts[0]] + parts[1..] == parts;
    }
  }

  /** `c.lower()` on the ASCII letters; every other character is left alone. */
  function LowerAscii(c: char): (d: char)
    ensures 'A' <= c <= 'Z' ==> 'a' <= d <= 'z' && d as int - c as int == 32
    ensures !('A' <= c <= 'Z') ==> d == c
  {
    if 'A' <= c <= 'Z' then (c as int + 32) as char else c
  }

  /** `s.lower()` restricted to ASCII case mapping. It decides `s.lower() == w`
      exactly when `w` is ASCII lower-case letters other than `k`: no other
      character lower-cases to one of those letters alone (U+0130 lower-cases
      to two characters, KELVIN SIGN to `k`). */
  function Lower(s: string): (r: string)
    ensures |r| == |s|
    ensures forall i :: 0 <= i < |s| ==> r[i] == LowerAscii(s[i])
  {
    if s == [] then [] else [LowerAscii(s[0])] + Lower(s[1..])
  }
}

=== FILE: wrappers.dfy ===
/** Option and Result: the two shapes every partial step of the scraper returns. */
module Wrappers {

  /** A value that may be absent, as Python's `None` or a node `find` did not find. */
  datatype Option<+T> = None | Some(value: T)

  /** Either a value or the reason the computation stopped. */
  datatype Result<+T, +E> = Ok(value: T) | Err(error: E)
}

/** The uncaught Python exceptions that end a scraping run. None of them is
    caught anywhere in the scraper, so each one aborts the whole run. */
module Failures {

  datatype Crash =
    | ConnectionFailed      // requests.get raised instead of returning a response
    | UrnMissing            // .split(":") called on the None of an absent data-entity-urn
    | UrnTooShort           // .split(":")[3] on an identifier with fewer than four segments
    | LanguageUndetectable  // langdetect.detect found no features in the description
}
